=== FILE: README.md ===
# Codebase Genius front end: backend response normalisation

This project models, in Dafny, the logic inside the Streamlit front end of
Codebase Genius (`Frontend/app.py`) that talks to the Jac backend and makes
sense of its answers. Everything else in that file is rendering.

- **Envelope normaliser** (`Envelope`): `unwrap_reports`. Jac walkers wrap
  their output in a `reports` list. When a dict's `reports` is a non-empty
  list whose first entry is a dict or a list, that entry is the real
  payload. Any other value passes through unchanged.
- **Request pipeline** (`Backend`): `post_backend`, `parse_backend_json` and
  `make_backend_request`. The network is a parameter: a function from the
  request sent (endpoint, JSON body, timeout) to what the transport did.
  Python's `None` is `JNull`. The kind of failure (`Outcome`) is kept only
  because each kind shows its own message; the caller gets `None` for all of
  them. The sidebar health probe is modelled as a three-way status.
- **Submit form** (`Submit`): the URL check, the `{"repo_url": ...}`
  request, and the split of the answer into error or documentation result.
- **History tab** (`History`): the list request and extraction of the
  repository list from a bare list, a dict with `items`, or anything else.
- **Python strings** (`Text`): `str.strip()` and `str.startswith`, with the
  whitespace set of `str.isspace()`.
- `Scenarios`: whole-flow examples with a fixed backend answer.

JSON values are the datatype `Json.JsonValue`. Numbers are mathematical
reals, since only their truthiness is consulted.

The code behaves as follows at four points, and the model does the same:

- An application error is any dict carrying the key `error`, whatever its
  value (`app.py:238`). It does not have to be a non-empty string.
- All failures collapse into one `None` (`app.py:90, 98, 105, 108`). There
  is no typed outcome at the caller. A 200 response whose body is JSON
  `null` looks the same as a failure.
- A first report that is a scalar is not unwrapped; the outer dict is kept.
- URL validation happens in the front end, before the request is sent. The
  prefix test looks at the input as typed, not the stripped input.

## Model

| member | source | states |
|---|---|---|
| `Envelope.UnwrapReports` | Assignment_2/Codebase-Genius/Frontend/app.py:63-74 | returns the first report exactly when the payload has a usable one, and the payload itself otherwise; a non-dict is returned unchanged; a dict or list never unwraps to a scalar |
| `Envelope.FirstReportIsSmaller` | Assignment_2/Codebase-Genius/Frontend/app.py:66-72 | the unwrapped first report is never the envelope itself |
| `Envelope.UnwrapChangesIff` | Assignment_2/Codebase-Genius/Frontend/app.py:65-74 | unwrapping changes the payload if and only if it is a dict whose `reports` is a non-empty list headed by a dict or list |
| `Envelope.UnwrapWrap` | Assignment_2/Codebase-Genius/Frontend/app.py:66-72 | a dict or list placed first in the `reports` list of any envelope is recovered exactly |
| `Envelope.UnwrapScalarReport` | Assignment_2/Codebase-Genius/Frontend/app.py:68-73 | a scalar first report leaves the whole envelope unchanged |
| `Envelope.UnwrapEmptyReports` | Assignment_2/Codebase-Genius/Frontend/app.py:66-73 | an empty `reports` list degrades to the outer dict |
| `Envelope.UnwrapNoReportsList` | Assignment_2/Codebase-Genius/Frontend/app.py:66-73 | a dict whose `reports` is missing or not a list is returned unchanged |
| `Envelope.UnwrapIgnoresRest` | Assignment_2/Codebase-Genius/Frontend/app.py:68-72 | the later reports and the other envelope fields never affect the result |
| `Envelope.UnwrapPeelsOneLayer` | Assignment_2/Codebase-Genius/Frontend/app.py:63-74 | only one envelope layer is removed, so unwrapping twice can differ from unwrapping once |
| `Json.Truthy` | Assignment_2/Codebase-Genius/Frontend/app.py:237 | Python truthiness as used by `or` and `if`: `None`, `False`, zero and empty strings, lists and dicts are false, everything else true (also consulted at `app.py:288`) |
| `Backend.SentPayload` | Assignment_2/Codebase-Genius/Frontend/app.py:84 | the posted body is never falsy except `{}`: a truthy payload is sent as it is, a missing or falsy one as `{}` |
| `Backend.BuildRequest` | Assignment_2/Codebase-Genius/Frontend/app.py:84 | the request goes to the given endpoint with the given timeout; its body is the payload when truthy, and `{}` when the payload is omitted or falsy |
| `Backend.PostBackend` | Assignment_2/Codebase-Genius/Frontend/app.py:82-90 | a response comes back exactly when the transport delivered one; a connection error or any other exception gives `None` |
| `Backend.ParseBackendJson` | Assignment_2/Codebase-Genius/Frontend/app.py:93-98 | an undecodable body gives `None`; a decodable one gives the decoded value |
| `Backend.Classify` | Assignment_2/Codebase-Genius/Frontend/app.py:82-110 | transport failures, then the status code, then decoding, each as its own outcome; a value is fetched only from a 200 with a decodable body |
| `Backend.Observe` | Assignment_2/Codebase-Genius/Frontend/app.py:90-108 | a fetched value reaches the caller unchanged; every failure outcome reaches it as `None` |
| `Backend.MakeBackendRequest` | Assignment_2/Codebase-Genius/Frontend/app.py:101-110 | a non-`None` result was delivered with status 200 and is exactly the decoded body; conversely a 200 response with a decodable body yields that body |
| `Backend.MakeBackendRequestClassifies` | Assignment_2/Codebase-Genius/Frontend/app.py:101-110 | the request function equals the short-circuiting classification of the transport result followed by mapping every failure to `None` |
| `Backend.FailuresCollapse` | Assignment_2/Codebase-Genius/Frontend/app.py:85-108 | any two failures, of any kinds, are observed identically by the caller |
| `Backend.StatusPrecedence` | Assignment_2/Codebase-Genius/Frontend/app.py:106-110 | a non-200 status is a server error whatever the body; an unparsable body never makes it a decoding failure |
| `Backend.NullBodyLooksLikeFailure` | Assignment_2/Codebase-Genius/Frontend/app.py:104-110 | a 200 response whose body is JSON `null` is indistinguishable from any failure |
| `Backend.HealthCheck` | Assignment_2/Codebase-Genius/Frontend/app.py:299-307 | offline exactly when the probe's transport failed, online exactly when it answered 200, a server error otherwise |
| `Backend.HealthIgnoresBody` | Assignment_2/Codebase-Genius/Frontend/app.py:299-307 | the probe's verdict depends only on the status code, never on the body |
| `Text.IsSpace` | Assignment_2/Codebase-Genius/Frontend/app.py:226 | the whitespace set of Python's `str.isspace()` that `str.strip()` removes: ASCII space, `\t` to `\r`, `\x1c` to `\x1f`, `\x85`, `\xa0` and the Unicode space separators |
| `Text.SkipSpaces` | Assignment_2/Codebase-Genius/Frontend/app.py:226 | the scan stops at the first non-whitespace character at or after its start, or at the end, and passes only whitespace |
| `Text.SkipSpacesBack` | Assignment_2/Codebase-Genius/Frontend/app.py:226 | the backward scan stops just after the last non-whitespace character, or at its lower bound, and passes only whitespace |
| `Text.StripStart` | Assignment_2/Codebase-Genius/Frontend/app.py:226 | everything before the start of the stripped text is whitespace, and the character at the start is not |
| `Text.StripEnd` | Assignment_2/Codebase-Genius/Frontend/app.py:226 | everything after the end of the stripped text is whitespace, and the last character kept is not |
| `Text.Strip` | Assignment_2/Codebase-Genius/Frontend/app.py:226 | the result is empty exactly when the input is all whitespace; otherwise it neither starts nor ends with whitespace |
| `Text.StripCutsOnlySpace` | Assignment_2/Codebase-Genius/Frontend/app.py:231 | the stripped string is a contiguous slice of the input with only whitespace cut off on either side |
| `Text.StripKeepsPrefix` | Assignment_2/Codebase-Genius/Frontend/app.py:228-231 | stripping keeps a prefix whose first and last characters are not whitespace |
| `Text.StripDropsTrailingSpace` | Assignment_2/Codebase-Genius/Frontend/app.py:231 | whitespace appended after text that starts and ends in non-whitespace is exactly what stripping removes |
| `Text.StartsWith` | Assignment_2/Codebase-Genius/Frontend/app.py:228 | `str.startswith`: the string is at least as long as the prefix and its first characters are the prefix |
| `Text.StripIdempotent` | Assignment_2/Codebase-Genius/Frontend/app.py:231 | stripping twice is the same as stripping once |
| `Submit.CheckRepoUrl` | Assignment_2/Codebase-Genius/Frontend/app.py:226-231 | blank input is rejected first; otherwise the input is accepted exactly when the unstripped text starts with `https://github.com/` or `http://github.com/`, and the accepted URL is the stripped input |
| `Submit.GitHubPrefixAccepted` | Assignment_2/Codebase-Genius/Frontend/app.py:226-230 | input is accepted if and only if the unstripped text starts with a GitHub prefix; the blank test never rejects such input |
| `Submit.AcceptedUrlKeepsPrefix` | Assignment_2/Codebase-Genius/Frontend/app.py:228-231 | input with a GitHub prefix is accepted, and the URL sent is non-empty, has no surrounding whitespace, and still starts with the prefix it was accepted for |
| `Submit.LeadingSpaceRejected` | Assignment_2/Codebase-Genius/Frontend/app.py:228 | input starting with whitespace is never accepted, because the prefix test runs before stripping |
| `Submit.TrailingSpaceStripped` | Assignment_2/Codebase-Genius/Frontend/app.py:228-231 | trailing whitespace after a GitHub URL is accepted and removed |
| `Submit.SubmitPayload` | Assignment_2/Codebase-Genius/Frontend/app.py:233 | the request body is the single field `repo_url` holding the URL, and is posted unchanged |
| `Submit.ClassifySubmitResult` | Assignment_2/Codebase-Genius/Frontend/app.py:236-241 | `None` shows nothing; an error is shown exactly when the unwrapped result is a dict with key `error`, carrying that value; otherwise a truthy unwrapped result is passed unchanged to the documentation renderer and a falsy one is passed as `{}` |
| `Submit.HasGitHubPrefix` | Assignment_2/Codebase-Genius/Frontend/app.py:228 | the input as typed starts with `https://github.com/` or with `http://github.com/` |
| `Submit.RendererCanRead` | Assignment_2/Codebase-Genius/Frontend/app.py:117 | the first `result.get` of the documentation renderer works, which needs a dict; later steps can still raise (see "## Left out") |
| `Submit.FalsyResultIsEmptySuccess` | Assignment_2/Codebase-Genius/Frontend/app.py:237 | a falsy unwrapped result is shown as the documentation result `{}` |
| `Submit.SuccessPassesThrough` | Assignment_2/Codebase-Genius/Frontend/app.py:237-241 | a truthy result without an `error` key is passed unchanged to the documentation renderer |
| `Submit.RendererFailsOnTruthyNonDict` | Assignment_2/Codebase-Genius/Frontend/app.py:237-241 | the documentation renderer receives a value it cannot read (not a dict) exactly when the unwrapped result is a truthy non-dict |
| `Submit.WrappedListReachesRenderer` | Assignment_2/Codebase-Genius/Frontend/app.py:236-241 | a non-empty list unwrapped from `reports` is handed to the documentation renderer, which cannot read it |
| `Submit.ErrorKeyDecides` | Assignment_2/Codebase-Genius/Frontend/app.py:237-239 | any value under `error`, empty or not a string, makes the result an error with that value, also inside an envelope |
| `Submit.SubmitRepo` | Assignment_2/Codebase-Genius/Frontend/app.py:225-241 | blank input is reported as blank and non-GitHub input as invalid |
| `Submit.SubmitSendsStrippedUrl` | Assignment_2/Codebase-Genius/Frontend/app.py:231-237 | a submit of input with a GitHub prefix posts `{"repo_url": <stripped input>}` to the processing endpoint with timeout 15, and its view depends only on the answer to that request |
| `Submit.RejectedInputSendsNothing` | Assignment_2/Codebase-Genius/Frontend/app.py:226-229 | a rejected input's view does not depend on the backend at all |
| `Submit.SubmitFailureShowsNothing` | Assignment_2/Codebase-Genius/Frontend/app.py:234-236 | every kind of failed request ends the submit with no result shown |
| `History.ExtractRepositories` | Assignment_2/Codebase-Genius/Frontend/app.py:282-286 | a list is used as is; a dict gives its `items` value, or `[]` if absent; anything else gives `[]` |
| `History.ClassifyHistoryResult` | Assignment_2/Codebase-Genius/Frontend/app.py:280-294 | `None` shows nothing; otherwise the extracted value is handed to the list renderer exactly when it is truthy, unchecked, and "no repositories" is shown when it is falsy |
| `History.CardRenders` | Assignment_2/Codebase-Genius/Frontend/app.py:150-152 | a repository card can be drawn: the entry is a dict, for `repo.get`, and its `status`, when present, is a string, for `.lower()` and `.title()` |
| `History.ListRenders` | Assignment_2/Codebase-Genius/Frontend/app.py:289-292 | the list branch can be drawn: the value is a list, for `len` and the loop, and every entry is a drawable card |
| `History.HistoryRendererFails` | Assignment_2/Codebase-Genius/Frontend/app.py:288-292 | the list renderer is handed a value it raises on (not a list, an entry not a dict, or a `status` that is not a string) exactly when the extracted value is truthy and not a list of such records |
| `History.ScalarItemsReachRenderer` | Assignment_2/Codebase-Genius/Frontend/app.py:285-289 | a non-zero number or `true` under `items` is handed to the list renderer, where `len` raises |
| `History.NullStatusReachesRenderer` | Assignment_2/Codebase-Genius/Frontend/app.py:288-292 | a list whose first record has `status` `null` is handed to the list renderer, which cannot draw that card |
| `History.LoadHistory` | Assignment_2/Codebase-Genius/Frontend/app.py:277-294 | the list request is posted as `{}` with timeout 15; any failed request leaves the tab unloaded, and a fetched answer is classified as is |
| `History.ListAnswerPreserved` | Assignment_2/Codebase-Genius/Frontend/app.py:281-284 | a non-empty list, bare or wrapped as the first report, is shown with its order and length kept |
| `History.ItemsAnswerUsed` | Assignment_2/Codebase-Genius/Frontend/app.py:285-286 | a dict answer, bare or wrapped, contributes exactly its `items` |
| `History.OtherShapesShowNone` | Assignment_2/Codebase-Genius/Frontend/app.py:281-294 | a scalar answer, or a dict with neither a usable report nor `items`, shows no repositories |
| `Scenarios.WrappedRecordShown` | Assignment_2/Codebase-Genius/Frontend/app.py:234-241 | a record wrapped in `reports` is shown unwrapped |
| `Scenarios.EmptyReportsShowOuter` | Assignment_2/Codebase-Genius/Frontend/app.py:234-241 | `{"reports": []}` is shown as the outer dict |
| `Scenarios.ConnectionRefused` | Assignment_2/Codebase-Genius/Frontend/app.py:85-87 | a refused connection shows no submit result and leaves the history unloaded |
| `Scenarios.ServerErrorWithHtml` | Assignment_2/Codebase-Genius/Frontend/app.py:106-108 | status 500 with an HTML body is a server error and shows no result |
| `Scenarios.ApplicationError` | Assignment_2/Codebase-Genius/Frontend/app.py:238-239 | `{"error": "repo not found"}` is shown as that error |
| `Scenarios.BareHistoryList` | Assignment_2/Codebase-Genius/Frontend/app.py:281-284 | a bare two-item list is shown in order |
| `Scenarios.RepoInputAccepted` | Assignment_2/Codebase-Genius/Frontend/app.py:226-231 | a plain `https://github.com/...` URL is accepted unchanged |

## Left out

- Rendering: page setup and CSS, the result and repository cards, the
  usage text, the tab headers and the sidebar text (`app.py:5-51`,
  `113-215`, `243-273`, `296-297`, `309-310`), and the `st.*` calls inside
  the modelled branches. Drawing the values is not modelled. The next two
  lines describe the ways the drawing code can raise on an unexpected
  answer that the model identifies. They are not a complete list.
- Submit.ClassifySubmitResult: `ShowDocumentation` of a value that is not a
  dict means the renderer raises. `display_documentation_result` calls
  `result.get` (`app.py:117`), which raises `AttributeError` for a list,
  string, number or boolean. Streamlit then stops that run of the script,
  so the history tab and the sidebar probe are not drawn either. The model
  stops at the hand-over. `Submit.RendererFailsOnTruthyNonDict` states
  exactly when the result is not a dict. A dict can also make the renderer
  raise, and the model does not track when: if `success` and
  `documentation_path` are both truthy, `os.path.exists(doc_path)`
  (`app.py:137`) raises `TypeError` when the path is a list, a dict or a
  floating-point number, before any file is touched. An integer or `true`
  is taken as a file descriptor instead. `Submit.RendererCanRead` covers
  only the first `result.get` (`app.py:117`).
- History.ClassifyHistoryResult: `Repositories` of a value the list renderer
  cannot draw means the tab raises. A number or `true` under `items` makes
  `len(repositories)` raise `TypeError` (`app.py:289`). A non-empty string
  or dict under `items`, or a list entry that is not a dict, reaches
  `repo.get` (`app.py:150`) and raises `AttributeError`. A record whose
  `status` is present but not a string (`null`, say) raises at `.lower()`
  (`app.py:152`). Streamlit then stops that run of the script, so the
  sidebar probe is not drawn either. The model stops at the hand-over.
  `History.HistoryRendererFails` states exactly when this happens.
- The text of the error messages, and whether the offline message is shown
  (`show_offline_message`). The `Outcome` kinds stand for which message
  appears; nothing else observable depends on them.
- The network call itself, its timeout mechanics and the JSON decoder
  inside `response.json()`. The network is a parameter, and a body is
  either decoded or undecodable. Which exceptions `requests` classes as a
  `ConnectionError` (a connect timeout is one, a read timeout is not) is
  decided by the network parameter choosing `ConnectionError` or
  `OtherError`.
- The file read in `display_documentation_result` (`app.py:137-142`): file
  system access.
- `st.rerun()` on refresh (`app.py:274-275`): it runs the whole script
  again, so both the history load and the sidebar health probe
  (`app.py:299`) are sent again. The submit request is not sent again,
  because the submit button is not pressed on that run.
- JSON numbers are mathematical reals. Floating-point precision and the
  int/float distinction are not modelled because only truthiness (zero or
  not) matters here.

=== FILE: backend.dfy ===
/** The request pipeline `post_backend` -> `make_backend_request` ->
    `parse_backend_json`. The network itself is a parameter: a function from
    the request sent to what the transport reported. Every failure ends in
    Python's `None`, modelled as `JNull`; the kind of failure is kept in
    `Outcome` only because each kind shows its own error message. */
module Backend {
  import opened Json

  const BaseUrl: string := "http://localhost:8000"
  const ProcessEndpoint: string := BaseUrl + "/walker/codebase_genius"
  const ListReposEndpoint: string := BaseUrl + "/walker/repositories"
  const HealthEndpoint: string := BaseUrl + "/walker/health"

  /** Seconds: the default of `post_backend`, and the health probe's. */
  const DefaultTimeout: int := 15
  const HealthTimeout: int := 2

  /** The one status code treated as success. */
  const OkStatus: int := 200

  /** One call of `requests.post(endpoint, json=..., timeout=...)`. */
  datatype Request = Request(endpoint: string, json: JsonValue, timeout: int)

  /** A response body: valid JSON, or something `response.json()` rejects
      with a `ValueError`. */
  datatype Body = Parsed(value: JsonValue) | Unparsable

  datatype HttpResponse = HttpResponse(status: int, body: Body)

  /** What `requests.post` did: returned a response, raised
      `ConnectionError`, or raised any other exception (read timeouts included; a connect
      timeout is a `ConnectionError`). */
  datatype Transport =
    | Delivered(response: HttpResponse)
    | ConnectionError
    | OtherError(message: string)

  /** The backend as seen from the front end. */
  type Network = Request -> Transport

  datatype Option<T> = None | Some(value: T)

  /** Where one request ended; each failure kind shows its own message but
      all of them return `None` to the caller. */
  datatype Outcome =
    | Fetched(value: JsonValue)
    | Offline
    | Crashed(message: string)
    | ServerError(status: int)
    | InvalidJson

  /** `payload or {}`: the JSON body actually posted. */
  function SentPayload(payload: JsonValue): (json: JsonValue)
    ensures Truthy(json) || json == EmptyObject
    ensures Truthy(payload) ==> json == payload
    ensures !Truthy(payload) ==> json == EmptyObject
  {
    Or(payload, EmptyObject)
  }

  /** The request `post_backend(endpoint, payload, timeout)` sends. */
  function BuildRequest(endpoint: string, payload: JsonValue, timeout: int): (req: Request)
    ensures req.endpoint == endpoint && req.timeout == timeout
    ensures Truthy(req.json) || req.json == EmptyObject
    ensures !Truthy(payload) ==> req.json == EmptyObject
    ensures Truthy(payload) ==> req.json == payload
  {
    Request(endpoint, SentPayload(payload), timeout)
  }

  /** `post_backend`: the response, or `None` when the transport raised. */
  function PostBackend(endpoint: string, payload: JsonValue, timeout: int, network: Network): (r: Option<HttpResponse>)
    ensures r.Some? <==> network(BuildRequest(endpoint, payload, timeout)).Delivered?
    ensures r.Some? ==> r.value == network(BuildRequest(endpoint, payload, timeout)).response
  {
    match network(BuildRequest(endpoint, payload, timeout))
    case Delivered(response) => Some(response)
    case ConnectionError => None
    case OtherError(_) => None
  }

  /** `parse_backend_json`: the decoded body, or `None` when decoding fails. */
  function ParseBackendJson(response: HttpResponse): (v: JsonValue)
    ensures response.body.Unparsable? ==> v == JNull
    ensures response.body.Parsed? ==> v == response.body.value
  {
    match response.body
    case Parsed(value) => value
    case Unparsable => JNull
  }

  /** The short-circuiting classification behind `make_backend_request`:
      transport first, then status code, and only then the body. */
  function Classify(t: Transport): (o: Outcome)
    ensures o.Fetched? <==> t.Delivered? && t.response.status == OkStatus && t.response.body.Parsed?
    ensures o.Fetched? ==> o.value == t.response.body.value
    ensures o.Offline? <==> t.ConnectionError?
    ensures o.Crashed? <==> t.OtherError?
    ensures o.ServerError? <==> t.Delivered? && t.response.status != OkStatus
    ensures o.ServerError? ==> o.status == t.response.status
    ensures o.InvalidJson? <==> t == Delivered(HttpResponse(OkStatus, Unparsable))
  {
    match t
    case ConnectionError => Offline
    case OtherError(msg) => Crashed(msg)
    case Delivered(response) =>
      if response.status != OkStatus then ServerError(response.status)
      else if response.body.Unparsable? then InvalidJson
      else Fetched(response.body.value)
  }

  /** What the caller of `make_backend_request` receives for an outcome. */
  function Observe(o: Outcome): (raw: JsonValue)
    ensures o.Fetched? ==> raw == o.value
    ensures !o.Fetched? ==> raw == JNull
  {
    if o.Fetched? then o.value else JNull
  }

  /** `make_backend_request(endpoint, payload, timeout)`. */
  function MakeBackendRequest(endpoint: string, payload: JsonValue, timeout: int, network: Network): (raw: JsonValue)
    ensures raw != JNull ==>
              var t := network(BuildRequest(endpoint, payload, timeout));
              t.Delivered? && t.response.status == OkStatus && t.response.body == Parsed(raw)
    ensures var t := network(BuildRequest(endpoint, payload, timeout));
            t.Delivered? && t.response.status == OkStatus && t.response.body.Parsed? ==>
              raw == t.response.body.value
  {
    var response := PostBackend(endpoint, payload, timeout, network);
    if response.None? then JNull
    else if response.value.status != OkStatus then JNull
    else ParseBackendJson(response.value)
  }

  /** `make_backend_request` is the classifier followed by `Observe`. */
  lemma MakeBackendRequestClassifies(endpoint: string, payload: JsonValue, timeout: int, network: Network)
    ensures MakeBackendRequest(endpoint, payload, timeout, network)
            == Observe(Classify(network(BuildRequest(endpoint, payload, timeout))))
  {
  }

  /** Any two failures, whatever kind and whatever they carry, reach the
      caller as the same value. */
  lemma FailuresCollapse(t1: Transport, t2: Transport)
    ensures !Classify(t1).Fetched? && !Classify(t2).Fetched? ==> Observe(Classify(t1)) == Observe(Classify(t2))
  {
  }

  /** A non-200 status is reported as a server error whatever the body is:
      an unparsable body never turns it into a decoding failure. */
  lemma StatusPrecedence(status: int, body: Body)
    requires status != OkStatus
    ensures Classify(Delivered(HttpResponse(status, body))) == ServerError(status)
    ensures Classify(Delivered(HttpResponse(status, body))) == Classify(Delivered(HttpResponse(status, Unparsable)))
  {
  }

  /** A 200 response whose body is the JSON literal `null` cannot be told
      apart from a failed request. */
  lemma NullBodyLooksLikeFailure(t: Transport)
    requires !Classify(t).Fetched?
    ensures Observe(Classify(Delivered(HttpResponse(OkStatus, Parsed(JNull))))) == Observe(Classify(t))
  {
  }

  /** The three states shown in the sidebar. */
  datatype Health = ServerOffline | ServerOnline | ServerFailing

  /** The sidebar probe: one `post_backend` to the health endpoint with a
      two-second timeout; only reachability and the status code count. */
  function HealthCheck(network: Network): (h: Health)
    ensures var t := network(Request(HealthEndpoint, EmptyObject, HealthTimeout));
            && (h == ServerOffline <==> !t.Delivered?)
            && (h == ServerOnline <==> t.Delivered? && t.response.status == OkStatus)
  {
    match PostBackend(HealthEndpoint, JNull, HealthTimeout, network)
    case None => ServerOffline
    case Some(response) => if response.status == OkStatus then ServerOnline else ServerFailing
  }

  /** The health probe ignores the response body. */
  lemma HealthIgnoresBody(network1: Network, network2: Network)
    requires var req := Request(HealthEndpoint, EmptyObject, HealthTimeout);
             && network1(req).Delivered? && network2(req).Delivered?
             && network1(req).response.status == network2(req).response.status
    ensures HealthCheck(network1) == HealthCheck(network2)
  {
  }
}

=== FILE: envelope.dfy ===
/** The envelope normaliser `unwrap_reports`: Jac walker responses wrap the
    real payload in the first entry of a `reports` list; responses that do
    not follow that convention pass through untouched. */
module Envelope {
  import opened Json

  /** The reserved field that carries the wrapped payload. */
  const ReportsKey: string := "reports"

  /** The payload is a dict whose `reports` value is a non-empty list whose
      first entry is a dict or a list: exactly when unwrapping takes effect. */
  predicate HasUsableReport(payload: JsonValue) {
    && payload.JObj?
    && ReportsKey in payload.fields
    && payload.fields[ReportsKey].JList?
    && |payload.fields[ReportsKey].items| > 0
    && IsContainer(payload.fields[ReportsKey].items[0])
  }

  /** The first report of a payload that has a usable one. */
  function FirstReport(payload: JsonValue): JsonValue
    requires HasUsableReport(payload)
  {
    payload.fields[ReportsKey].items[0]
  }

  /** An envelope as the backend builds it: the fields `extra` plus a
      `reports` list whose first entry is `first`. */
  function Wrap(first: JsonValue, rest: seq<JsonValue>, extra: map<string, JsonValue>): (e: JsonValue)
    ensures e.JObj? && ReportsKey in e.fields
  {
    JObj(extra[ReportsKey := JList([first] + rest)])
  }

  /** `unwrap_reports(payload)`. */
  function UnwrapReports(payload: JsonValue): (r: JsonValue)
    ensures HasUsableReport(payload) ==> r == FirstReport(payload)
    ensures !HasUsableReport(payload) ==> r == payload
    ensures !payload.JObj? ==> r == payload
    ensures IsContainer(payload) ==> IsContainer(r)
  {
    if payload.JObj? then
      var reports := Get(payload, ReportsKey, JNull);
      if reports.JList? && |reports.items| > 0 then
        var first := reports.items[0];
        if first.JObj? then first
        else if first.JList? then first
        else payload
      else payload
    else payload
  }

  /** A report lives strictly inside its envelope, so it never equals it. */
  lemma FirstReportIsSmaller(payload: JsonValue)
    requires HasUsableReport(payload)
    ensures FirstReport(payload) != payload
  {
    var reports := payload.fields[ReportsKey];
    assert reports in payload.fields.Values;
    assert reports < payload;
    assert FirstReport(payload) in reports.items;
    assert FirstReport(payload) < reports;
  }

  /** Unwrapping changes the payload exactly when it carries a usable report. */
  lemma UnwrapChangesIff(payload: JsonValue)
    ensures UnwrapReports(payload) != payload <==> HasUsableReport(payload)
  {
    if HasUsableReport(payload) {
      FirstReportIsSmaller(payload);
    }
  }

  /** Round trip: a dict or list wrapped as the first report of an envelope
      is recovered exactly, whatever the other reports and fields are. */
  lemma UnwrapWrap(first: JsonValue, rest: seq<JsonValue>, extra: map<string, JsonValue>)
    requires IsContainer(first)
    ensures UnwrapReports(Wrap(first, rest, extra)) == first
  {
    var e := Wrap(first, rest, extra);
    assert e.fields[ReportsKey].items[0] == first;
  }

  /** A scalar first report is not unwrapped: the whole envelope comes back. */
  lemma UnwrapScalarReport(first: JsonValue, rest: seq<JsonValue>, extra: map<string, JsonValue>)
    requires !IsContainer(first)
    ensures UnwrapReports(Wrap(first, rest, extra)) == Wrap(first, rest, extra)
  {
    var e := Wrap(first, rest, extra);
    assert e.fields[ReportsKey].items[0] == first;
  }

  /** An empty `reports` list degrades to the outer dict. */
  lemma UnwrapEmptyReports(extra: map<string, JsonValue>)
    ensures UnwrapReports(JObj(extra[ReportsKey := EmptyList])) == JObj(extra[ReportsKey := EmptyList])
  {
  }

  /** A dict without a `reports` field, or with a non-list one, is returned
      unchanged. */
  lemma UnwrapNoReportsList(fields: map<string, JsonValue>)
    requires ReportsKey !in fields || !fields[ReportsKey].JList?
    ensures UnwrapReports(JObj(fields)) == JObj(fields)
  {
  }

  /** Only the first report matters: everything after it, and every other
      field of the envelope, is discarded. */
  lemma UnwrapIgnoresRest(first: JsonValue, rest1: seq<JsonValue>, extra1: map<string, JsonValue>,
                          rest2: seq<JsonValue>, extra2: map<string, JsonValue>)
    requires IsContainer(first)
    ensures UnwrapReports(Wrap(first, rest1, extra1)) == UnwrapReports(Wrap(first, rest2, extra2))
  {
    UnwrapWrap(first, rest1, extra1);
    UnwrapWrap(first, rest2, extra2);
  }

  /** Unwrapping peels one layer only: a report that is itself an envelope
      is not unwrapped again, so the function is not idempotent. */
  lemma UnwrapPeelsOneLayer()
    ensures var inner := Wrap(EmptyObject, [], map[]);
            UnwrapReports(Wrap(inner, [], map[])) == inner
            && UnwrapReports(inner) == EmptyObject
            && inner != EmptyObject
  {
    var inner := Wrap(EmptyObject, [], map[]);
    UnwrapWrap(inner, [], map[]);
    UnwrapWrap(EmptyObject, [], map[]);
    assert ReportsKey in inner.fields;
  }
}

=== FILE: history.dfy ===
/** The "Repository History" tab: the list request and the extraction of
    the repository list from whatever shape the backend answered with. */
module History {
  import opened Json
  import opened Envelope
  import opened Backend

  /** The field of a dict answer that holds the repository list. */
  const ItemsKey: string := "items"

  /** The payload is a dict without an `items` field. */
  predicate LacksItems(payload: JsonValue) {
    payload.JObj? && ItemsKey !in payload.fields
  }

  /** The repository list taken from an unwrapped payload: a list is used
      as it is, a dict gives its `items` field (default `[]`), and any other
      value gives `[]`. No check is made that `items` is itself a list. */
  function ExtractRepositories(payload: JsonValue): (repos: JsonValue)
    ensures payload.JList? ==> repos == payload
    ensures payload.JObj? && ItemsKey in payload.fields ==> repos == payload.fields[ItemsKey]
    ensures !IsContainer(payload) || LacksItems(payload) ==> repos == EmptyList
  {
    if payload.JList? then payload
    else if payload.JObj? then Get(payload, ItemsKey, EmptyList)
    else EmptyList
  }

  /** What the tab shows. */
  datatype HistoryView =
    | NotLoaded
    | NoRepositories
    | Repositories(repos: JsonValue)

  /** The branch on `raw_result`: `None` shows nothing; otherwise the
      extracted list is shown when it is truthy. */
  function ClassifyHistoryResult(raw: JsonValue): (v: HistoryView)
    ensures v.NotLoaded? <==> raw == JNull
    ensures v.Repositories? ==> Truthy(v.repos) && v.repos == ExtractRepositories(UnwrapReports(raw))
    ensures v.NoRepositories? <==> raw != JNull && !Truthy(ExtractRepositories(UnwrapReports(raw)))
  {
    if raw == JNull then NotLoaded
    else
      var repos := ExtractRepositories(UnwrapReports(raw));
      if Truthy(repos) then Repositories(repos) else NoRepositories
  }

  /** The whole tab: one list request with no payload and the default
      timeout, then the classification of its answer. */
  function LoadHistory(network: Network): (v: HistoryView)
    ensures var t := network(Request(ListReposEndpoint, EmptyObject, DefaultTimeout));
            && (!Classify(t).Fetched? ==> v == NotLoaded)
            && (Classify(t).Fetched? ==> v == ClassifyHistoryResult(Classify(t).value))
  {
    ClassifyHistoryResult(MakeBackendRequest(ListReposEndpoint, JNull, DefaultTimeout, network))
  }

  /** The field of a repository record whose value the card lower-cases. */
  const StatusKey: string := "status"

  /** `render_repository_card(repo)` draws without raising: `repo.get` needs
      a dict, and `.lower()` on its `status` needs a string when present. */
  predicate CardRenders(repo: JsonValue) {
    repo.JObj? && (StatusKey in repo.fields ==> repo.fields[StatusKey].JStr?)
  }

  /** The list branch draws without raising: `len` and the loop need a list
      (a string or dict would be iterated as strings, which have no `.get`),
      and every entry must make a card. */
  predicate ListRenders(repos: JsonValue) {
    repos.JList? && forall i :: 0 <= i < |repos.items| ==> CardRenders(repos.items[i])
  }

  /** The list renderer is handed something it raises on exactly when the
      extracted value is truthy and is not a list of renderable records. */
  lemma HistoryRendererFails(raw: JsonValue)
    requires raw != JNull
    ensures var v := ClassifyHistoryResult(raw);
            var repos := ExtractRepositories(UnwrapReports(raw));
            v.Repositories? && !ListRenders(v.repos) <==> Truthy(repos) && !ListRenders(repos)
  {
  }

  /** A non-zero number or `true` under `items` reaches `len`, which raises. */
  lemma ScalarItemsReachRenderer(items: JsonValue, rest: seq<JsonValue>, extra: map<string, JsonValue>)
    requires Truthy(items) && (items.JNum? || items.JBool?)
    ensures ClassifyHistoryResult(Wrap(JObj(map[ItemsKey := items]), rest, extra)) == Repositories(items)
    ensures !ListRenders(items)
  {
    UnwrapWrap(JObj(map[ItemsKey := items]), rest, extra);
  }

  /** A record whose `status` is `null` is handed to the card renderer,
      whose `.lower()` raises on it. */
  lemma NullStatusReachesRenderer(record: map<string, JsonValue>, others: seq<JsonValue>)
    requires StatusKey in record && record[StatusKey] == JNull
    ensures ClassifyHistoryResult(JList([JObj(record)] + others)) == Repositories(JList([JObj(record)] + others))
    ensures !ListRenders(JList([JObj(record)] + others))
  {
    var repos := JList([JObj(record)] + others);
    assert repos.items[0] == JObj(record);
  }

  /** A bare list of repositories, or one wrapped as the first report, is
      shown with its order and length preserved. */
  lemma ListAnswerPreserved(repos: seq<JsonValue>, rest: seq<JsonValue>, extra: map<string, JsonValue>)
    requires |repos| > 0
    ensures ClassifyHistoryResult(JList(repos)) == Repositories(JList(repos))
    ensures ClassifyHistoryResult(Wrap(JList(repos), rest, extra)) == Repositories(JList(repos))
  {
    UnwrapWrap(JList(repos), rest, extra);
  }

  /** A dict answer, bare or wrapped, contributes exactly its `items`. */
  lemma ItemsAnswerUsed(fields: map<string, JsonValue>, rest: seq<JsonValue>, extra: map<string, JsonValue>)
    requires ItemsKey in fields && Truthy(fields[ItemsKey])
    ensures ClassifyHistoryResult(Wrap(JObj(fields), rest, extra)) == Repositories(fields[ItemsKey])
    ensures !HasUsableReport(JObj(fields)) ==> ClassifyHistoryResult(JObj(fields)) == Repositories(fields[ItemsKey])
  {
    UnwrapWrap(JObj(fields), rest, extra);
  }

  /** A scalar answer, or a dict that carries neither a usable report nor
      an `items` field, shows that there are no repositories. */
  lemma OtherShapesShowNone(raw: JsonValue)
    requires raw != JNull
    requires !IsContainer(raw) || (LacksItems(raw) && !HasUsableReport(raw))
    ensures ClassifyHistoryResult(raw) == NoRepositories
  {
  }
}

=== FILE: json.dfy ===
/** Decoded JSON values as the front end sees them after `response.json()`,
    together with the few pieces of Python semantics the front end relies on:
    truthiness, `v or default` and `dict.get(key, default)`. */
module Json {

  /** A decoded JSON document. `JNull` is Python's `None`; numbers are kept
      as mathematical reals because only their truthiness is ever consulted. */
  datatype JsonValue =
    | JNull
    | JBool(truth: bool)
    | JNum(number: real)
    | JStr(text: string)
    | JList(items: seq<JsonValue>)
    | JObj(fields: map<string, JsonValue>)

  /** The empty object `{}`. */
  const EmptyObject: JsonValue := JObj(map[])

  /** The empty list `[]`. */
  const EmptyList: JsonValue := JList([])

  /** Python truthiness: `None`, `False`, zero, and empty strings, lists and
      dicts are false; everything else is true. */
  predicate Truthy(v: JsonValue) {
    match v
    case JNull => false
    case JBool(b) => b
    case JNum(n) => n != 0.0
    case JStr(s) => |s| > 0
    case JList(xs) => |xs| > 0
    case JObj(m) => |m| > 0
  }

  /** `isinstance(v, dict) or isinstance(v, list)`. */
  predicate IsContainer(v: JsonValue) {
    v.JObj? || v.JList?
  }

  /** Python's `v or default`. */
  function Or(v: JsonValue, default: JsonValue): JsonValue {
    if Truthy(v) then v else default
  }

  /** Python's `d.get(key, default)` on a dict. */
  function Get(d: JsonValue, key: string, default: JsonValue): JsonValue
    requires d.JObj?
  {
    if key in d.fields then d.fields[key] else default
  }

  /** Python's `isinstance(v, dict) and key in v`. */
  predicate HasKey(v: JsonValue, key: string) {
    v.JObj? && key in v.fields
  }
}

=== FILE: scenarios.dfy ===
/** Whole-flow examples: one fixed backend answer each, run through the
    submit form (for any URL the form accepts, `RepoInput` among them) or
    through the history tab. */
module Scenarios {
  import opened Json
  import opened Text
  import opened Envelope
  import opened Backend
  import opened Submit
  import opened History

  const RepoInput: string := "https://github.com/user/r1"

  /** The sample URL passes the form's check unchanged. */
  lemma RepoInputAccepted()
    ensures CheckRepoUrl(RepoInput) == Accepted(RepoInput)
  {
    assert StartsWith(RepoInput, HttpsPrefix);
    assert RepoInput[0] == 'h' && RepoInput[|RepoInput| - 1] == '1';
    StripKeepsPrefix(RepoInput, RepoInput);
  }

  /** A backend that answers every request with the same transport result. */
  function Answering(t: Transport): Network {
    (req: Request) => t
  }

  function Ok(body: JsonValue): Transport {
    Delivered(HttpResponse(OkStatus, Parsed(body)))
  }

  const Record: JsonValue := JObj(map["status" := JStr("success"), "repository" := JStr("r1")])

  /** A record wrapped in a one-element `reports` list is shown unwrapped. */
  lemma WrappedRecordShown(input: string)
    requires HasGitHubPrefix(input)
    ensures SubmitRepo(input, Answering(Ok(JObj(map[ReportsKey := JList([Record])])))) == ShowDocumentation(Record)
  {
    SubmitSendsStrippedUrl(input, Answering(Ok(JObj(map[ReportsKey := JList([Record])]))));
    UnwrapWrap(Record, [], map[]);
    assert "status" in Record.fields;
    assert ErrorKey !in Record.fields;
  }

  /** An empty `reports` list falls back to the outer dict, which is shown. */
  lemma EmptyReportsShowOuter(input: string)
    requires HasGitHubPrefix(input)
    ensures var outer := JObj(map[ReportsKey := EmptyList]);
            SubmitRepo(input, Answering(Ok(outer))) == ShowDocumentation(outer)
  {
    var outer := JObj(map[ReportsKey := EmptyList]);
    SubmitSendsStrippedUrl(input, Answering(Ok(outer)));
    assert ReportsKey in outer.fields;
    assert ErrorKey !in outer.fields;
  }

  /** A refused connection shows nothing beyond the offline message. */
  lemma ConnectionRefused(input: string)
    requires HasGitHubPrefix(input)
    ensures SubmitRepo(input, Answering(ConnectionError)) == NoResult
    ensures LoadHistory(Answering(ConnectionError)) == NotLoaded
  {
    SubmitSendsStrippedUrl(input, Answering(ConnectionError));
  }

  /** A 500 with an HTML body is a server error, not a decoding failure. */
  lemma ServerErrorWithHtml(input: string)
    requires HasGitHubPrefix(input)
    ensures Classify(Delivered(HttpResponse(500, Unparsable))) == ServerError(500)
    ensures SubmitRepo(input, Answering(Delivered(HttpResponse(500, Unparsable)))) == NoResult
  {
    SubmitSendsStrippedUrl(input, Answering(Delivered(HttpResponse(500, Unparsable))));
  }

  /** An `error` field is shown as the error. */
  lemma ApplicationError(input: string)
    requires HasGitHubPrefix(input)
    ensures SubmitRepo(input, Answering(Ok(JObj(map[ErrorKey := JStr("repo not found")]))))
            == ShowError(JStr("repo not found"))
  {
    var answer := JObj(map[ErrorKey := JStr("repo not found")]);
    SubmitSendsStrippedUrl(input, Answering(Ok(answer)));
    assert ReportsKey !in answer.fields;
  }

  /** A bare list of two repositories is shown in order. */
  lemma BareHistoryList()
    ensures var repos := JList([JObj(map["name" := JStr("r1"), "status" := JStr("success")]),
                                JObj(map["name" := JStr("r2"), "status" := JStr("processing")])]);
            LoadHistory(Answering(Ok(repos))) == Repositories(repos)
  {
  }
}

=== FILE: submit.dfy ===
/** The "Generate Documentation" form: the URL check in front of the
    request, and the classification of what came back. */
module Submit {
  import opened Json
  import opened Text
  import opened Envelope
  import opened Backend

  const HttpsPrefix: string := "https://github.com/"
  const HttpPrefix: string := "http://github.com/"

  /** The field of the submit request that carries the repository URL. */
  const RepoUrlKey: string := "repo_url"

  /** The key whose presence marks a result as an application error. */
  const ErrorKey: string := "error"

  /** The verdict of the URL check. */
  datatype UrlCheck = EmptyUrl | NotGitHub | Accepted(url: string)

  /** The unstripped input starts with one of the two GitHub prefixes. */
  predicate HasGitHubPrefix(input: string) {
    StartsWith(input, HttpsPrefix) || StartsWith(input, HttpPrefix)
  }

  /** The form's validation: blank input first, then the prefix test on the
      input as typed; an accepted URL is passed on stripped. */
  function CheckRepoUrl(input: string): (c: UrlCheck)
    ensures c.EmptyUrl? <==> AllSpace(input)
    ensures c.Accepted? <==> !AllSpace(input) && HasGitHubPrefix(input)
    ensures c.Accepted? ==> c.url == Strip(input)
  {
    if Strip(input) == [] then EmptyUrl
    else if !HasGitHubPrefix(input) then NotGitHub
    else Accepted(Strip(input))
  }

  /** An accepted URL is non-empty, has no surrounding whitespace, and still
      starts with the GitHub prefix the input was accepted for. */
  lemma AcceptedUrlKeepsPrefix(input: string)
    requires HasGitHubPrefix(input)
    ensures CheckRepoUrl(input).Accepted?
    ensures var url := CheckRepoUrl(input).url;
            && url != []
            && !IsSpace(url[0]) && !IsSpace(url[|url| - 1])
            && (StartsWith(input, HttpsPrefix) ==> StartsWith(url, HttpsPrefix))
            && (StartsWith(input, HttpPrefix) ==> StartsWith(url, HttpPrefix))
  {
    GitHubPrefixAccepted(input);
    if StartsWith(input, HttpsPrefix) {
      StripKeepsPrefix(input, HttpsPrefix);
    }
    if StartsWith(input, HttpPrefix) {
      StripKeepsPrefix(input, HttpPrefix);
    }
  }

  /** The prefix test looks at the input before stripping, so leading
      whitespace gets an otherwise valid URL rejected. */
  lemma LeadingSpaceRejected(input: string)
    requires |input| > 0 && IsSpace(input[0])
    ensures !CheckRepoUrl(input).Accepted?
  {
    assert input[0] != HttpsPrefix[0];
    assert input[0] != HttpPrefix[0];
  }

  /** Trailing whitespace is tolerated and removed from what is sent. */
  lemma TrailingSpaceStripped(url: string, tail: string)
    requires HasGitHubPrefix(url) && !IsSpace(url[|url| - 1])
    requires AllSpace(tail)
    ensures CheckRepoUrl(url + tail) == Accepted(url)
  {
    var s := url + tail;
    assert url[0] == 'h';
    assert s[..|url|] == url;
    if StartsWith(url, HttpsPrefix) {
      assert s[..|HttpsPrefix|] == url[..|HttpsPrefix|];
    } else {
      assert s[..|HttpPrefix|] == url[..|HttpPrefix|];
    }
    StripDropsTrailingSpace(url, tail);
  }

  /** The body of the submit request. */
  function SubmitPayload(url: string): (payload: JsonValue)
    ensures Truthy(payload)
    ensures SentPayload(payload) == payload
    ensures payload.JObj? && payload.fields.Keys == {RepoUrlKey} && payload.fields[RepoUrlKey] == JStr(url)
  {
    var payload := JObj(map[RepoUrlKey := JStr(url)]);
    assert RepoUrlKey in payload.fields;
    payload
  }

  /** What the form shows after a submit. */
  datatype SubmitView =
    | RejectedEmpty
    | RejectedPrefix
    | NoResult
    | ShowError(error: JsonValue)
    | ShowDocumentation(result: JsonValue)

  /** The branch on `raw_result`: `None` shows nothing more; otherwise the
      unwrapped result, with a falsy one replaced by `{}`, is an error if it
      is a dict holding an `error` key and a documentation result if not. */
  function ClassifySubmitResult(raw: JsonValue): (v: SubmitView)
    ensures v.NoResult? <==> raw == JNull
    ensures v.ShowError? <==> raw != JNull && HasKey(UnwrapReports(raw), ErrorKey)
    ensures v.ShowError? ==> v.error == UnwrapReports(raw).fields[ErrorKey]
    ensures v.ShowDocumentation? ==> Truthy(v.result) || v.result == EmptyObject
    ensures v.ShowDocumentation? && Truthy(UnwrapReports(raw)) ==> v.result == UnwrapReports(raw)
    ensures v.ShowDocumentation? && !Truthy(UnwrapReports(raw)) ==> v.result == EmptyObject
    ensures v.ShowDocumentation? ==> !HasKey(v.result, ErrorKey)
    ensures v.NoResult? || v.ShowError? || v.ShowDocumentation?
  {
    if raw == JNull then NoResult
    else
      var result := Or(UnwrapReports(raw), EmptyObject);
      if result.JObj? && ErrorKey in result.fields then ShowError(result.fields[ErrorKey])
      else ShowDocumentation(result)
  }

  /** The first step of `display_documentation_result`, `result.get(...)`,
      works: only a dict supports it, and any other value makes it raise.
      Later steps of the renderer can still raise on some dicts. */
  predicate RendererCanRead(result: JsonValue) {
    result.JObj?
  }

  /** The documentation renderer is handed a value it cannot read exactly
      when the unwrapped result is a truthy non-dict: a non-empty list
      (bare or unwrapped from `reports`), a non-empty string, a non-zero
      number or `true`. */
  lemma RendererFailsOnTruthyNonDict(raw: JsonValue)
    requires raw != JNull
    ensures ClassifySubmitResult(raw).ShowDocumentation? && !RendererCanRead(ClassifySubmitResult(raw).result)
            <==> Truthy(UnwrapReports(raw)) && !UnwrapReports(raw).JObj?
  {
  }

  /** A list wrapped as the first report reaches the renderer, which cannot
      read it. */
  lemma WrappedListReachesRenderer(xs: seq<JsonValue>, rest: seq<JsonValue>, extra: map<string, JsonValue>)
    requires |xs| > 0
    ensures ClassifySubmitResult(Wrap(JList(xs), rest, extra)) == ShowDocumentation(JList(xs))
    ensures !RendererCanRead(JList(xs))
  {
    UnwrapWrap(JList(xs), rest, extra);
  }

  /** A falsy unwrapped result (`null`, `{}`, `[]`, `""`, `0`, `false`) is
      shown as the empty documentation result `{}`. */
  lemma FalsyResultIsEmptySuccess(raw: JsonValue)
    requires raw != JNull && !Truthy(UnwrapReports(raw))
    ensures ClassifySubmitResult(raw) == ShowDocumentation(EmptyObject)
  {
  }

  /** Any truthy result without an `error` key is shown unchanged. */
  lemma SuccessPassesThrough(raw: JsonValue)
    requires raw != JNull && Truthy(UnwrapReports(raw)) && !HasKey(UnwrapReports(raw), ErrorKey)
    ensures ClassifySubmitResult(raw) == ShowDocumentation(UnwrapReports(raw))
  {
  }

  /** The error test is key presence: any value under `error`, empty string
      and `null` included, makes the result an error carrying that value,
      also when the error dict arrives inside an envelope. */
  lemma ErrorKeyDecides(fields: map<string, JsonValue>, rest: seq<JsonValue>, extra: map<string, JsonValue>)
    requires ErrorKey in fields
    ensures !HasUsableReport(JObj(fields)) ==> ClassifySubmitResult(JObj(fields)) == ShowError(fields[ErrorKey])
    ensures ClassifySubmitResult(Wrap(JObj(fields), rest, extra)) == ShowError(fields[ErrorKey])
  {
    UnwrapWrap(JObj(fields), rest, extra);
  }

  /** The whole submit action for what was typed and what the backend does. */
  function SubmitRepo(input: string, network: Network): (v: SubmitView)
    ensures v.RejectedEmpty? <==> AllSpace(input)
    ensures v.RejectedPrefix? <==> !AllSpace(input) && !HasGitHubPrefix(input)
  {
    match CheckRepoUrl(input)
    case EmptyUrl => RejectedEmpty
    case NotGitHub => RejectedPrefix
    case Accepted(url) =>
      ClassifySubmitResult(MakeBackendRequest(ProcessEndpoint, SubmitPayload(url), DefaultTimeout, network))
  }

  /** The request an accepted submit sends: `{"repo_url": url}` to the
      processing endpoint with the default timeout. */
  function SubmitRequest(url: string): Request {
    Request(ProcessEndpoint, SubmitPayload(url), DefaultTimeout)
  }

  /** Input that starts with a GitHub prefix is never blank, so the prefix
      test alone decides acceptance. */
  lemma GitHubPrefixAccepted(input: string)
    ensures CheckRepoUrl(input).Accepted? <==> HasGitHubPrefix(input)
  {
    if HasGitHubPrefix(input) {
      assert input[0] == 'h';
    }
  }

  /** An accepted submit posts `{"repo_url": <stripped input>}` to the
      processing endpoint with the default timeout, and its view depends on
      nothing but the backend's answer to that one request. */
  lemma SubmitSendsStrippedUrl(input: string, network: Network)
    requires HasGitHubPrefix(input)
    ensures SubmitRepo(input, network) == ClassifySubmitResult(Observe(Classify(network(SubmitRequest(Strip(input))))))
  {
    GitHubPrefixAccepted(input);
    MakeBackendRequestClassifies(ProcessEndpoint, SubmitPayload(Strip(input)), DefaultTimeout, network);
  }

  /** A rejected input never reaches the network. */
  lemma RejectedInputSendsNothing(input: string, network1: Network, network2: Network)
    requires !CheckRepoUrl(input).Accepted?
    ensures SubmitRepo(input, network1) == SubmitRepo(input, network2)
    ensures !SubmitRepo(input, network1).NoResult?
  {
  }

  /** Any failed request, whatever its kind, ends the submit with nothing
      more shown. */
  lemma SubmitFailureShowsNothing(input: string, network: Network)
    ensures HasGitHubPrefix(input) && !Classify(network(SubmitRequest(Strip(input)))).Fetched?
            ==> SubmitRepo(input, network) == NoResult
  {
    if HasGitHubPrefix(input) {
      SubmitSendsStrippedUrl(input, network);
    }
  }
}

=== FILE: text.dfy ===
/** The string operations the URL check uses: Python's `str.strip()` with no
    argument and `str.startswith`. */
module Text {

  /** Python's `str.isspace()` for one code point: the ASCII whitespace and
      separator controls plus the Unicode space separators. */
  predicate IsSpace(c: char) {
    || c == ' '
    || ('\t' <= c <= '\r')
    || ('\U{1C}' <= c <= '\U{1F}')
    || c == '\U{85}'
    || c == '\U{A0}'
    || c == '\U{1680}'
    || ('\U{2000}' <= c <= '\U{200A}')
    || c == '\U{2028}'
    || c == '\U{2029}'
    || c == '\U{202F}'
    || c == '\U{205F}'
    || c == '\U{3000}'
  }

  /** Every character of `s` is whitespace. */
  predicate AllSpace(s: string) {
    forall k :: 0 <= k < |s| ==> IsSpace(s[k])
  }

  /** The first index at or after `i` whose character is not whitespace,
      or `|s|` if there is none: the forward scan of `str.strip()`. */
  function SkipSpaces(s: string, i: nat): (n: nat)
    requires i <= |s|
    ensures i <= n <= |s|
    ensures forall k :: i <= k < n ==> IsSpace(s[k])
    ensures n < |s| ==> !IsSpace(s[n])
    decreases |s| - i
  {
    if i < |s| && IsSpace(s[i]) then SkipSpaces(s, i + 1) else i
  }

  /** Moving down from `j`, no further than `lo`, the end of the last
      character that is not whitespace: the backward scan of `str.strip()`. */
  function SkipSpacesBack(s: string, lo: nat, j: nat): (m: nat)
    requires lo <= j <= |s|
    ensures lo <= m <= j
    ensures forall k :: m <= k < j ==> IsSpace(s[k])
    ensures m > lo ==> !IsSpace(s[m - 1])
    decreases j
  {
    if j > lo && IsSpace(s[j - 1]) then SkipSpacesBack(s, lo, j - 1) else j
  }

  /** Where `s.strip()` begins inside `s`. */
  function StripStart(s: string): (i: nat)
    ensures i <= |s|
    ensures forall k :: 0 <= k < i ==> IsSpace(s[k])
    ensures i < |s| ==> !IsSpace(s[i])
  {
    SkipSpaces(s, 0)
  }

  /** Where `s.strip()` ends inside `s`. */
  function StripEnd(s: string): (j: nat)
    ensures StripStart(s) <= j <= |s|
    ensures forall k :: j <= k < |s| ==> IsSpace(s[k])
    ensures j > StripStart(s) ==> !IsSpace(s[j - 1])
  {
    SkipSpacesBack(s, StripStart(s), |s|)
  }

  /** `s.strip()`: the slice of `s` between the two scans. */
  function Strip(s: string): (r: string)
    ensures |r| <= |s|
    ensures r == [] <==> AllSpace(s)
    ensures r != [] ==> !IsSpace(r[0]) && !IsSpace(r[|r| - 1])
  {
    s[StripStart(s)..StripEnd(s)]
  }

  /** Only whitespace is removed, and only from the two ends: what is cut
      off before and after the result is all whitespace. */
  lemma StripCutsOnlySpace(s: string)
    ensures var i := StripStart(s);
            && Strip(s) == s[i..i + |Strip(s)|]
            && (forall k :: 0 <= k < i ==> IsSpace(s[k]))
            && (forall k :: i + |Strip(s)| <= k < |s| ==> IsSpace(s[k]))
  {
  }

  /** `s.startswith(prefix)`. */
  predicate StartsWith(s: string, prefix: string) {
    |prefix| <= |s| && s[..|prefix|] == prefix
  }

  /** Stripping a string that starts with a prefix whose first and last
      characters are not whitespace keeps that prefix. */
  lemma StripKeepsPrefix(s: string, prefix: string)
    requires StartsWith(s, prefix)
    requires |prefix| > 0 && !IsSpace(prefix[0]) && !IsSpace(prefix[|prefix| - 1])
    ensures StartsWith(Strip(s), prefix)
  {
    assert s[0] == prefix[0];
    assert StripStart(s) == 0;
    assert s[|prefix| - 1] == prefix[|prefix| - 1];
    assert StripEnd(s) >= |prefix|;
    assert Strip(s)[..|prefix|] == s[..|prefix|];
  }

  /** Whitespace appended after a string that ends in a non-whitespace
      character is exactly what stripping removes at the end. */
  lemma StripDropsTrailingSpace(s: string, tail: string)
    requires |s| > 0 && !IsSpace(s[0]) && !IsSpace(s[|s| - 1])
    requires AllSpace(tail)
    ensures Strip(s + tail) == s
  {
    var t := s + tail;
    assert t[0] == s[0];
    assert StripStart(t) == 0;
    assert t[|s| - 1] == s[|s| - 1];
    assert StripEnd(t) == |s|;
    assert t[..|s|] == s;
  }

  /** `s.strip().strip() == s.strip()`. */
  lemma StripIdempotent(s: string)
    ensures Strip(Strip(s)) == Strip(s)
  {
    var r := Strip(s);
    if r != [] {
      assert StripStart(r) == 0;
      assert StripEnd(r) == |r|;
    }
  }
}
